=== FILE: README.md ===
# Remote shutdown coordination — a Dafny model

This project models the remote-shutdown protocol of a small Electron desktop
agent. Each machine registers a row in a shared `computers` table with a
status of `online`, `shutting_down` or `offline`. An operator elsewhere sets a
row to `shutting_down`. The table's change feed delivers that change to the
machine's agent. The agent marks the row `offline`, asks the main process to
run the platform's power-off command, and puts the row back to `online` if the
attempt fails. On every start the agent marks its own row `online` again.

The model has six modules:

- `Results` (`results.dfy`): `Option` for the source's `T | null`, `Result` for a call that resolves or throws.
- `Text` (`text.dfy`): ECMAScript `trim`, which the handlers apply to the typed name.
- `Registry` (`registry.dfy`): the table and the client calls in `src/lib/supabase.ts`.
  - The table is a `map<string, Computer>` keyed by `machine_id`.
  - Every call takes the store's verdict `fault: Option<StoreError>`. `Some(e)` means the call rejected with `e` and committed nothing.
  - A single-row select returns `{data, error}`. A missing row is reported as the error `NoRows`, which stands for the code `PGRST116`, and the lookup turns it into `None`.
  - The change-feed handler is a pure function from an `(old, new)` payload to the status passed on, if any.
- `Platform` (`platform.dfy`): the main-process side in `electron/main.ts`.
  - It chooses the shutdown command and maps a failed command to `false`.
  - It maps a failed identity probe to `null`.
  - The operating-system calls are parameters: `exec` is a function from command to outcome, and the identity probe is a value.
- `Agent` (`agent.dfy`): the window logic of `src/App.tsx` without the rendering.
  - Each handler is a method. It takes the environment's outcomes as parameters and returns the store, the local state and an event trace.
  - The trace events are `ReadRow`, `WriteStatus`, `WriteName`, `Insert`, `Delete` and `Execute`. Each write records whether it committed.
  - `Replay` re-applies a trace's committed writes. Every handler proves that the store it returns is the replay of its own trace, so the trace is a faithful log and ordering claims about the trace are claims about the store.
- `Scenarios` (`scenarios.dfy`): end-to-end runs that chain the operator's write, the feed, the agent and the platform.

## Model

| member | source | states |
|---|---|---|
| Registry.GetComputerByMachineId | src/lib/supabase.ts:20-29 | An absent row yields `Ok(None)` and a present row yields that row. The not-found error (`NoRows`, code `PGRST116`) is also `Ok(None)`. Every other store error is raised unchanged, so a raised error is never the not-found error. |
| Registry.AddComputer | src/lib/supabase.ts:31-47 | The inserted and returned row has the given machine id, name and store id. Its status is `online` and `created_at == updated_at == now`. Other rows are untouched. A store error is raised, never swallowed. |
| Registry.RemoveComputer | src/lib/supabase.ts:49-56 | After the delete, `m` has no row, and the key set loses exactly `m`. Other rows are untouched. A store error is raised. |
| Registry.UpdateComputerStatus | src/lib/supabase.ts:60-70 | The status is set and `updated_at` refreshed on row `m`. Its id, machine id, name and `created_at` are kept. The key set and all other rows are unchanged. A store error is raised. |
| Registry.UpdateComputerName | src/lib/supabase.ts:72-82 | The name is set and `updated_at` refreshed on row `m`. Its status, id and `created_at` are kept. Other rows are unchanged. A store error is raised. |
| Registry.StatusNotification | src/lib/supabase.ts:89-98 | The callback fires exactly for an UPDATE payload whose new row has the subscribed machine id and whose status differs from the old one. It passes the new status. |
| Registry.StatusWriteNotifies | src/lib/supabase.ts:60-98 | A committed status write to row `m` notifies the subscriber of `k` with the new status exactly when `k == m` and the status changed. Every other subscriber gets nothing. |
| Registry.RenameIsSilent | src/lib/supabase.ts:72-98 | A committed rename produces no status notification for any subscriber. |
| Registry.OperationsKeepWellKeyed | src/lib/supabase.ts:31-82 | Insert, delete and both updates keep every row filed under its own machine id. |
| Registry.LookupAfterRemove | src/lib/supabase.ts:49-55 | After a committed removal of `m`, looking `m` up yields `null`. |
| Registry.LookupAfterAdd | src/lib/supabase.ts:31-46 | After a committed insertion for `m`, looking `m` up yields the inserted row, whose status is `online`. |
| Platform.ShutdownCommand | electron/main.ts:36-38 | The command is `shutdown /s /t 0` exactly when the platform is `win32`. Otherwise it is `sudo shutdown -h now`. |
| Platform.HandleShutdown | electron/main.ts:35-46 | It succeeds exactly when the platform's command completes. It fails with the command's own error otherwise, so the error is re-raised. |
| Platform.ShutdownComputer | electron/main.ts:80-88 | The `shutdown-computer` handler returns `true` iff the platform's command completed, and `false` otherwise. It never raises. |
| Platform.GetMachineId | electron/main.ts:49-56 | It returns the platform's identifier, or `null` exactly when the platform call throws. |
| Platform.MachineIdHandler | electron/main.ts:90-92 | The `get-machine-id` handler returns `getMachineId`'s answer unchanged, and so `null` exactly when the probe failed. |
| Text.Trim | src/App.tsx:89 | The result is no longer than the input. It neither starts nor ends with white space. It is empty exactly when the input is blank. That it is a contiguous slice of the input is stated by `Text.TrimCutsOnlyWhitespace`. |
| Text.TrimCutsOnlyWhitespace | src/App.tsx:89 | The trimmed name is the slice of the input that starts at some index `i`. Everything before `i` and everything after the slice is white space. |
| Text.TrimIdempotent | src/App.tsx:92 | Trimming an already trimmed name changes nothing. |
| Agent.Initialize | src/App.tsx:23-39 | With no identity, or an empty one, it makes no read or write and changes nothing. With an identity it reads first. If the read raises, nothing is written and the local view is kept. Otherwise the local view is the row as read before the write, and exactly one `online` write follows. When both calls commit, the row ends `online` whatever its prior status. Other rows are untouched. |
| Agent.AttemptShutdown | src/App.tsx:58-67 | The `try` block writes `offline` first. A lost offline write stops it there, with the executor never called. A committed one is followed by exactly one executor call. A failure reply adds one `online` write. It throws exactly when the offline write fails, the executor rejects, or a rollback write fails. After a committed `offline` write, the row ends `online` only after a failure reply with a committed rollback, and `offline` otherwise. After a lost `offline` write, the store is unchanged. Only `status` and `updated_at` of row `m` change, and no row is created or removed. |
| Agent.OnStatusChange | src/App.tsx:56-74 | For any status but `shutting_down` it writes nothing and never calls the executor. On `shutting_down` the first step is the `offline` write, and the executor is called iff that write committed, directly after it. On success nothing more is written and the row ends `offline`. Otherwise the last step is an `online` write. That write commits iff the rollback inside the `try` commits after a failure reply, or else the catch block's write commits. A rejected rollback write leads to a second `online` write from the catch block. The final status is given for every combination of outcomes. It is `online` when that last write commits. It is `offline` when it is lost after a committed `offline` write. If both the `offline` write and the catch block's write are lost, the store is left exactly as it was, so the row keeps its previous status. The trace is given exactly on every branch, so the executor is called at most once and only status writes are made. Only `status` and `updated_at` of row `m` change, and no row is created or removed. |
| Agent.OnFeedChange | src/lib/supabase.ts:84-101 | A feed payload makes the agent act iff it is an update of its own row into `shutting_down` from another status. When it acts, the `offline` write comes first and the executor is called iff that write committed. The commit of the last `online` write, the unchanged store when both the `offline` and the catch writes are lost, and the final status for every combination of outcomes are all as for `OnStatusChange`. The trace holds only status writes and executor calls, at most four steps. Only `status` and `updated_at` of row `m` change, and no row is created or removed. |
| Agent.HandleAddComputer | src/App.tsx:88-99 | The guard holds exactly when the id is non-empty and the name not blank. If it fails, nothing happens. Otherwise one insert is made, of the row with the new store id, the machine id, the trimmed name, status `online`, and `created_at` and `updated_at` both set to the call's time. On success that exact row is stored under the machine id and is the local view. On failure the local state and the store are unchanged. |
| Agent.HandleRemoveComputer | src/App.tsx:101-112 | Without a machine id nothing happens. Otherwise one delete is made. The local view becomes `null` only when it commits, after which a lookup yields `null`. On failure the local state, including the editing flag, is unchanged. |
| Agent.HandleUpdateName | src/App.tsx:115-128 | Under the guard, it renames to the trimmed name and then re-reads. A rejected rename leaves everything unchanged and skips the read. After a committed rename, the row keeps its status and `created_at`. If the re-read raises, the local state is kept, editing mode included. Otherwise the local view is the re-read row and editing ends. |
| Agent.ReplayKeepsOtherRows | src/App.tsx:23-128 | No trace of the handlers touches any row but the agent's own. |
| Agent.ReplayKeepsWellKeyed | src/lib/supabase.ts:31-82 | Replaying any trace of the handlers' writes keeps every row filed under its own machine id. |
| Scenarios.RegisterFreshMachine | src/App.tsx:88-99 | A machine with no row starts up, sees `null`, and is added with a non-blank name. The row then exists, is `online`, carries the trimmed name, and is what the lookup returns. |
| Scenarios.RemoteShutdown | src/App.tsx:56-74 | The operator sets `shutting_down` and the feed delivers it. The agent drives the platform's executor, with a call that comes after the `offline` write. The row ends `offline` iff the platform's command completed, and `online` otherwise. |
| Scenarios.RestartHealsLostRollback | src/App.tsx:29-32 | A failed shutdown whose two rollback writes are both lost leaves the row `offline` (the intermediate store is returned and stated). The next start-up brings it back to `online`. |
| Scenarios.RemoveThenLookup | src/App.tsx:101-112 | After a successful remove through the window, the lookup yields `null`. |
| Scenarios.RenameRegistered | src/App.tsx:115-128 | A successful rename shows the trimmed name. Status and `created_at` are unchanged and `updated_at` is the rename time. |

## Where the code and its stated intent differ

The model follows the code in each case.

- Key uniqueness is not enforced anywhere in this code. `addComputer` just inserts. The model files rows by `machine_id`, so a second insert for the same id replaces the row instead of adding a second one. This is an assumption of the model, not a proved property.
- Start-up does not mark the row `online` before the subscription opens. The subscription effect runs when the machine id is set, which happens before the read and the write. That ordering is concurrency and is not modelled.
- Not every failure in the shutdown callback is contained. If the rollback write inside the `try` rejects, the `catch` block issues a second `online` write. If that write rejects too, the error escapes the callback. The model records both writes and proves the row then stays `offline`.
- A shutdown request can leave the row `shutting_down`. If the `offline` write rejects, the `catch` block writes `online`. If that write is lost too, the store keeps the row's previous status, normally `shutting_down`, although the comments at src/App.tsx:65 and src/App.tsx:70 say a failed shutdown restores `online`. The model records the two lost writes and proves the store unchanged.
- The locally shown row after start-up is the row read before the `online` write, so it may still show `shutting_down` or `offline`.

## Left out

- Rendering, React hooks, and the `loading`/`initializing` spinner flags (src/App.tsx:130-230): presentation only.
- Subscription lifecycle (the channel held in a promise, unsubscribe on cleanup, re-subscription on an identity change): asynchronous and concurrent. Only the payload predicate and the callback body are modelled.
- Error codes: only the distinction the lookup draws is kept. `NoRows` is the error with code `PGRST116`, and `Failure(code)` is any other error. Its code has the type `OtherCode`, which excludes `PGRST116`.
- StatusNotification: the feed's old row is assumed to carry the previous `status`, which holds only when the table's replica identity is FULL. Under the default replica identity the old row holds only the primary key. Then the source's status comparison sees `undefined` and fires on every update of the row, renames and the agent's own writes included. `Registry.RenameIsSilent` and the "status changed" half of `Registry.StatusWriteNotifies` rest on this assumption.
- The library's `.single()` semantics: abstracted as a select that returns the row, the not-found code, or the injected error. In particular, `.single()` failing on several matching rows is not modelled, because the map holds one row per id.
- Supabase client construction and environment variables (src/lib/supabase.ts:1-6). Electron window creation, menu, app events and path setup (electron/main.ts:12-33, 58-77, 94-107): platform glue.
- The real `exec` and `machineIdSync`: foreign calls, taken as parameters (`exec: string -> ExecResult`, `IdProbe`).
- Timestamps: `new Date().toISOString()` is an opaque `now` parameter, one per handler call. The source reads the clock afresh for each write. No ordering of timestamps is claimed.
- The IPC transport between window and main process: `ExecutorReply.Rejected` stands for a rejected `shutdownComputer()` call. Every other IPC failure is not modelled.
- The operator console that writes `shutting_down` is not part of this repository. The scenarios use a direct `UpdateComputerStatus` call for it.
- A feed payload whose `status` is outside the three values cannot be expressed, because `Status` has exactly three constructors.
- Duplicate `shutting_down` deliveries and a timeout on the shutdown command: the code defines neither.
- src/types/electron.d.ts: a type declaration of the IPC surface with no behaviour. It only shaped the signatures.
- Console logging in the `catch` blocks: no effect on state.

=== FILE: agent.dfy ===
/** The agent window's logic (src/App.tsx), without the rendering: start-up,
    the reaction to a remote shutdown request, and the operator's add, remove
    and rename handlers. Each `await` of the source is one step; each handler
    takes the outcomes of its environment (store verdicts, the executor's
    reply, the identity probe) as parameters and returns the store after the
    call, the local state after the call, and the trace of what it did. */
module Agent {
  import opened Results
  import opened Registry
  import Text
  import Platform

  /** The window's local state; the `loading`/`initializing` spinner flags are
      presentation only and are not kept. */
  datatype AgentState = AgentState(
    machineId: string,
    computer: Option<Computer>,
    computerName: string,
    isEditingName: bool)

  /** The state the window starts in. */
  const Initial: AgentState := AgentState("", None, "", false)

  /** How the renderer's `shutdownComputer()` call ended: it resolved with the
      main process's boolean, or it rejected. */
  datatype ExecutorReply = Replied(success: bool) | Rejected

  /** One step a handler takes against the store or the platform, all on the
      row of the agent's own machine. Each write records the values it sent
      and whether the store committed it. An `Insert` logs the row that
      `AddComputer` built, so replaying it rebuilds that same row from its
      name, creation time and store id. */
  datatype Event =
    | ReadRow
    | WriteStatus(status: Status, at: string, committed: bool)
    | WriteName(name: string, at: string, committed: bool)
    | Insert(row: Computer, committed: bool)
    | Delete(committed: bool)
    | Execute

  /** What one step does to the store: a committed write is applied, anything
      else leaves it as it was. */
  function Effect(store: Store, m: string, e: Event): Store {
    match e
    case WriteStatus(s, at, true) => UpdateComputerStatus(store, m, s, at, None).value
    case WriteName(n, at, true) => UpdateComputerName(store, m, n, at, None).value
    case Insert(row, true) => AddComputer(store, m, row.name, row.createdAt, row.id, None).value.store
    case Delete(true) => RemoveComputer(store, m, None).value
    case _ => store
  }

  /** The store obtained by applying a trace's steps in order. */
  function Replay(store: Store, m: string, trace: seq<Event>): Store
    decreases |trace|
  {
    if trace == [] then store else Replay(Effect(store, m, trace[0]), m, trace[1..])
  }

  /** Replaying two traces one after the other is replaying their concatenation. */
  lemma {:induction false} ReplayAppend(store: Store, m: string, a: seq<Event>, b: seq<Event>)
    ensures Replay(store, m, a + b) == Replay(Replay(store, m, a), m, b)
    decreases |a|
  {
    if a == [] {
      assert a + b == b;
    } else {
      assert (a + b)[0] == a[0];
      assert (a + b)[1..] == a[1..] + b;
      ReplayAppend(Effect(store, m, a[0]), m, a[1..], b);
    }
  }

  /** Replaying a trace extended by one step applies that step last. */
  lemma ReplaySnoc(store: Store, m: string, a: seq<Event>, e: Event)
    ensures Replay(store, m, a + [e]) == Effect(Replay(store, m, a), m, e)
  {
    ReplayAppend(store, m, a, [e]);
    assert [e][1..] == [];
  }

  /** A trace touches no row but the agent's own. */
  lemma {:induction false} ReplayKeepsOtherRows(store: Store, m: string, trace: seq<Event>)
    ensures SameElsewhere(store, Replay(store, m, trace), m)
    decreases |trace|
  {
    if trace != [] {
      var next := Effect(store, m, trace[0]);
      assert SameElsewhere(store, next, m);
      ReplayKeepsOtherRows(next, m, trace[1..]);
    }
  }

  /** A trace keeps every row filed under its own machine id. */
  lemma {:induction false} ReplayKeepsWellKeyed(store: Store, m: string, trace: seq<Event>)
    requires WellKeyed(store)
    ensures WellKeyed(Replay(store, m, trace))
    decreases |trace|
  {
    if trace != [] {
      match trace[0] {
        case WriteStatus(s, at, _) => OperationsKeepWellKeyed(store, m, "", s, at, "");
        case WriteName(n, at, _) => OperationsKeepWellKeyed(store, m, n, Online, at, "");
        case Insert(row, _) => OperationsKeepWellKeyed(store, m, row.name, Online, row.createdAt, row.id);
        case Delete(_) => OperationsKeepWellKeyed(store, m, "", Online, "", "");
        case _ =>
      }
      ReplayKeepsWellKeyed(Effect(store, m, trace[0]), m, trace[1..]);
    }
  }

  /** Every executor call comes directly after a committed `offline` write. */
  predicate ExecutesAfterOffline(trace: seq<Event>) {
    forall i :: 0 <= i < |trace| && trace[i] == Execute ==>
      0 < i && trace[i - 1].WriteStatus? && trace[i - 1].status == Offline && trace[i - 1].committed
  }

  /** Sends one status write for row `m`, logs it, and applies it if the store
      committed it. */
  method SendStatus(store0: Store, m: string, current: Store, trace: seq<Event>, s: Status, now: string, fault: Option<StoreError>)
    returns (current': Store, trace': seq<Event>)
    requires current == Replay(store0, m, trace)
    ensures trace' == trace + [WriteStatus(s, now, fault.None?)]
    ensures current' == Replay(store0, m, trace')
    ensures current' == UpdateComputerStatus(current, m, s, now, fault).GetOr(current)
  {
    var w := UpdateComputerStatus(current, m, s, now, fault);
    ReplaySnoc(store0, m, trace, WriteStatus(s, now, fault.None?));
    trace' := trace + [WriteStatus(s, now, fault.None?)];
    current' := w.GetOr(current);
  }

  /** The identity start-up binds to: the `get-machine-id` answer, with
      `null` read as the empty string, since the source tests it for truthiness. */
  function BoundId(probe: Platform.IdProbe): string {
    match Platform.MachineIdHandler(probe)
    case Some(id) => id
    case None => ""
  }

  /** Start-up (`initialize`): resolve the identity; with one, read the row
      into the local view and then mark the row online. Any rejection ends
      the sequence; the catch only logs. */
  method Initialize(store: Store, st: AgentState, probe: Platform.IdProbe,
                    readFault: Option<StoreError>, writeFault: Option<StoreError>, now: string)
    returns (store': Store, st': AgentState, trace: seq<Event>)
    ensures store' == Replay(store, st'.machineId, trace)
    ensures st'.computerName == st.computerName && st'.isEditingName == st.isEditingName
    ensures BoundId(probe) == "" ==> trace == [] && st' == st && store' == store
    ensures BoundId(probe) != "" ==> st'.machineId == BoundId(probe) && |trace| > 0 && trace[0] == ReadRow
    ensures BoundId(probe) != "" && ReadRaises(readFault) ==>
      trace == [ReadRow] && st'.computer == st.computer && store' == store
    ensures BoundId(probe) != "" && !ReadRaises(readFault) ==>
      && trace == [ReadRow, WriteStatus(Online, now, writeFault.None?)]
      && st'.computer == (if readFault.None? && BoundId(probe) in store then Some(store[BoundId(probe)]) else None)
    ensures trace != [] && readFault.None? && writeFault.None? && st'.machineId in store ==>
      st'.computer == Some(store[st'.machineId]) && st'.machineId in store' && store'[st'.machineId].status == Online
    ensures SameElsewhere(store, store', st'.machineId)
  {
    store', st', trace := store, st, [];
    var id := Platform.MachineIdHandler(probe);
    if id.None? || id.value == "" {
      return;
    }
    var m := id.value;
    st' := st'.(machineId := m);
    ReplaySnoc(store, m, trace, ReadRow);
    trace := trace + [ReadRow];
    var read := GetComputerByMachineId(store', m, readFault);
    if read.Err? {
      return;
    }
    st' := st'.(computer := read.value);
    store', trace := SendStatus(store, m, store', trace, Online, now, writeFault);
  }

  /** The `try` block of the subscription callback: mark the row offline,
      then call the executor, and write online again if it reports failure.
      `threw` tells whether some step rejected, which hands control to the
      `catch` block. */
  method AttemptShutdown(store: Store, m: string, executor: ExecutorReply,
                         offlineFault: Option<StoreError>, rollbackFault: Option<StoreError>, now: string)
    returns (store': Store, trace: seq<Event>, threw: bool)
    ensures store' == Replay(store, m, trace)
    ensures offlineFault.Some? ==> trace == [WriteStatus(Offline, now, false)] && store' == store
    ensures offlineFault.None? && executor != Replied(false) ==> trace == [WriteStatus(Offline, now, true), Execute]
    ensures offlineFault.None? && executor == Replied(false) ==>
      trace == [WriteStatus(Offline, now, true), Execute, WriteStatus(Online, now, rollbackFault.None?)]
    ensures threw <==> offlineFault.Some? || executor.Rejected? || (executor == Replied(false) && rollbackFault.Some?)
    ensures store'.Keys == store.Keys
    ensures m in store ==> store'[m].(status := store[m].status, updatedAt := store[m].updatedAt) == store[m]
    ensures m in store && offlineFault.None? ==>
      store'[m].status == (if executor == Replied(false) && rollbackFault.None? then Online else Offline)
  {
    store', trace := SendStatus(store, m, store, [], Offline, now, offlineFault);
    threw := offlineFault.Some?;
    if threw {
      return;
    }
    ReplaySnoc(store, m, trace, Execute);
    trace := trace + [Execute];
    match executor
    case Rejected =>
      threw := true;
    case Replied(success) =>
      if !success {
        store', trace := SendStatus(store, m, store', trace, Online, now, rollbackFault);
        threw := rollbackFault.Some?;
      }
  }

  /** Whether a failed shutdown attempt ends with a committed `online` write:
      the rollback inside the `try` block when it commits (then nothing
      throws), otherwise the `catch` block's write. */
  predicate OnlineRestored(executor: ExecutorReply, offlineFault: Option<StoreError>,
                           rollbackFault: Option<StoreError>, recoveryFault: Option<StoreError>) {
    (offlineFault.None? && executor == Replied(false) && rollbackFault.None?) || recoveryFault.None?
  }

  /** The status a row that had status `prior` ends with after a shutdown
      request, given what each step of the callback met. */
  function ShutdownOutcome(prior: Status, executor: ExecutorReply, offlineFault: Option<StoreError>,
                           rollbackFault: Option<StoreError>, recoveryFault: Option<StoreError>): Status {
    if offlineFault.None? && executor == Replied(true) then Offline
    else if OnlineRestored(executor, offlineFault, rollbackFault, recoveryFault) then Online
    else if offlineFault.None? then Offline
    else prior
  }

  /** The subscription callback (`onStatusChange`): on `shutting_down`, run
      the `try` block, and when it rejects, write online from the `catch`
      block. */
  method OnStatusChange(store: Store, m: string, newStatus: Status, executor: ExecutorReply,
                        offlineFault: Option<StoreError>, rollbackFault: Option<StoreError>,
                        recoveryFault: Option<StoreError>, now: string)
    returns (store': Store, trace: seq<Event>)
    ensures store' == Replay(store, m, trace)
    ensures newStatus != ShuttingDown ==> trace == [] && store' == store
    ensures newStatus == ShuttingDown ==> |trace| > 0 && trace[0] == WriteStatus(Offline, now, offlineFault.None?)
    ensures ExecutesAfterOffline(trace)
    ensures Execute in trace <==> newStatus == ShuttingDown && offlineFault.None?
    ensures newStatus == ShuttingDown && offlineFault.None? && executor == Replied(true) ==>
      trace == [WriteStatus(Offline, now, true), Execute]
    ensures newStatus == ShuttingDown && !(offlineFault.None? && executor == Replied(true)) ==>
      trace[|trace| - 1] == WriteStatus(Online, now, OnlineRestored(executor, offlineFault, rollbackFault, recoveryFault))
    ensures newStatus == ShuttingDown && offlineFault.None? && executor == Replied(false) && rollbackFault.Some? ==>
      trace == [WriteStatus(Offline, now, true), Execute, WriteStatus(Online, now, false), WriteStatus(Online, now, recoveryFault.None?)]
    ensures newStatus == ShuttingDown && offlineFault.None? && executor == Replied(false) && rollbackFault.None? ==>
      trace == [WriteStatus(Offline, now, true), Execute, WriteStatus(Online, now, true)]
    ensures newStatus == ShuttingDown && offlineFault.None? && executor.Rejected? ==>
      trace == [WriteStatus(Offline, now, true), Execute, WriteStatus(Online, now, recoveryFault.None?)]
    ensures newStatus == ShuttingDown && offlineFault.Some? ==>
      trace == [WriteStatus(Offline, now, false), WriteStatus(Online, now, recoveryFault.None?)]
    ensures newStatus == ShuttingDown && offlineFault.Some? && recoveryFault.Some? ==>
      store' == store
    ensures store'.Keys == store.Keys
    ensures m in store ==> store'[m].(status := store[m].status, updatedAt := store[m].updatedAt) == store[m]
    ensures m in store && newStatus == ShuttingDown ==>
      m in store' && store'[m].status == ShutdownOutcome(store[m].status, executor, offlineFault, rollbackFault, recoveryFault)
    ensures SameElsewhere(store, store', m)
  {
    store', trace := store, [];
    if newStatus != ShuttingDown {
      return;
    }
    var threw;
    store', trace, threw := AttemptShutdown(store, m, executor, offlineFault, rollbackFault, now);
    if threw {
      store', trace := SendStatus(store, m, store', trace, Online, now, recoveryFault);
    }
    ReplayKeepsOtherRows(store, m, trace);
  }

  /** The callback as wired by `subscribeToComputerStatus(m, onStatusChange)`:
      a feed payload reaches `OnStatusChange` only when the feed lets it through. */
  method OnFeedChange(store: Store, m: string, change: Change, executor: ExecutorReply,
                      offlineFault: Option<StoreError>, rollbackFault: Option<StoreError>,
                      recoveryFault: Option<StoreError>, now: string)
    returns (store': Store, trace: seq<Event>)
    ensures store' == Replay(store, m, trace)
    ensures trace != [] <==>
      && change.kind == UpdateChange && change.after.machineId == m
      && change.after.status == ShuttingDown && change.before.status != ShuttingDown
    ensures trace != [] ==> trace[0] == WriteStatus(Offline, now, offlineFault.None?)
    ensures ExecutesAfterOffline(trace)
    ensures Execute in trace <==> trace != [] && offlineFault.None?
    ensures trace != [] && !(offlineFault.None? && executor == Replied(true)) ==>
      trace[|trace| - 1] == WriteStatus(Online, now, OnlineRestored(executor, offlineFault, rollbackFault, recoveryFault))
    ensures trace != [] && offlineFault.Some? && recoveryFault.Some? ==> store' == store
    ensures forall e :: e in trace ==> e.WriteStatus? || e == Execute
    ensures |trace| <= 4
    ensures store'.Keys == store.Keys
    ensures m in store ==> store'[m].(status := store[m].status, updatedAt := store[m].updatedAt) == store[m]
    ensures m in store && trace != [] ==>
      m in store' && store'[m].status == ShutdownOutcome(store[m].status, executor, offlineFault, rollbackFault, recoveryFault)
    ensures SameElsewhere(store, store', m)
  {
    var notified := StatusNotification(m, change);
    if notified.Some? {
      store', trace := OnStatusChange(store, m, notified.value, executor, offlineFault, rollbackFault, recoveryFault, now);
    } else {
      store', trace := store, [];
    }
  }

  /** The guard shared by the add and rename handlers: a machine id is known
      and the typed name is not blank, so it does not trim to the empty string. */
  predicate CanSubmitName(st: AgentState) {
    st.machineId != "" && !Text.IsBlank(st.computerName)
  }

  /** `handleAddComputer`: registers this machine under the trimmed name and
      shows the inserted row; a rejected insert changes nothing locally. */
  method HandleAddComputer(store: Store, st: AgentState, now: string, newId: string, fault: Option<StoreError>)
    returns (store': Store, st': AgentState, trace: seq<Event>)
    ensures CanSubmitName(st) <==> st.machineId != "" && Text.Trim(st.computerName) != ""
    ensures store' == Replay(store, st.machineId, trace)
    ensures st'.machineId == st.machineId && st'.computerName == st.computerName
    ensures st'.isEditingName == st.isEditingName
    ensures !CanSubmitName(st) ==> trace == [] && st' == st && store' == store
    ensures CanSubmitName(st) ==>
      && |trace| == 1 && trace[0].Insert? && trace[0].committed == fault.None?
      && trace[0].row == Computer(newId, st.machineId, Text.Trim(st.computerName), Online, now, now)
    ensures fault.Some? ==> st' == st && store' == store
    ensures CanSubmitName(st) && fault.None? ==>
      && st.machineId in store'
      && st'.computer == Some(store'[st.machineId])
      && store'[st.machineId] == trace[0].row
    ensures SameElsewhere(store, store', st.machineId)
  {
    store', st', trace := store, st, [];
    if !CanSubmitName(st) {
      return;
    }
    var name := Text.Trim(st.computerName);
    var r := AddComputer(store, st.machineId, name, now, newId, fault);
    var row := Computer(newId, st.machineId, name, Online, now, now);
    ReplaySnoc(store, st.machineId, trace, Insert(row, fault.None?));
    trace := trace + [Insert(row, fault.None?)];
    if r.Ok? {
      store' := r.value.store;
      st' := st'.(computer := Some(r.value.row));
    }
  }

  /** `handleRemoveComputer`: deletes this machine's row and clears the local
      view, but only when the delete succeeds. */
  method HandleRemoveComputer(store: Store, st: AgentState, fault: Option<StoreError>)
    returns (store': Store, st': AgentState, trace: seq<Event>)
    ensures store' == Replay(store, st.machineId, trace)
    ensures st.machineId == "" ==> trace == [] && st' == st && store' == store
    ensures st.machineId != "" ==> trace == [Delete(fault.None?)]
    ensures st.machineId != "" && fault.None? ==>
      st' == st.(computer := None) && GetComputerByMachineId(store', st.machineId, None) == Ok(None)
    ensures fault.Some? ==> st' == st && store' == store
    ensures SameElsewhere(store, store', st.machineId)
  {
    store', st', trace := store, st, [];
    if st.machineId == "" {
      return;
    }
    var r := RemoveComputer(store, st.machineId, fault);
    ReplaySnoc(store, st.machineId, trace, Delete(fault.None?));
    trace := trace + [Delete(fault.None?)];
    if r.Ok? {
      store' := r.value;
      st' := st'.(computer := None);
    }
  }

  /** `handleUpdateName`: renames this machine's row to the trimmed name, then
      re-reads the row into the local view and leaves editing mode. A
      rejected rename, or a rejected re-read, leaves the local state as it was. */
  method HandleUpdateName(store: Store, st: AgentState, now: string,
                          writeFault: Option<StoreError>, readFault: Option<StoreError>)
    returns (store': Store, st': AgentState, trace: seq<Event>)
    ensures store' == Replay(store, st.machineId, trace)
    ensures st'.machineId == st.machineId && st'.computerName == st.computerName
    ensures !CanSubmitName(st) ==> trace == [] && st' == st && store' == store
    ensures CanSubmitName(st) ==> |trace| > 0 && trace[0] == WriteName(Text.Trim(st.computerName), now, writeFault.None?)
    ensures CanSubmitName(st) && writeFault.Some? ==> trace == [WriteName(Text.Trim(st.computerName), now, false)]
    ensures writeFault.Some? ==> st' == st && store' == store
    ensures CanSubmitName(st) && writeFault.None? ==>
      && trace == [WriteName(Text.Trim(st.computerName), now, true), ReadRow]
      && (st.machineId in store ==>
            && st.machineId in store'
            && store'[st.machineId].name == Text.Trim(st.computerName)
            && store'[st.machineId].status == store[st.machineId].status
            && store'[st.machineId].createdAt == store[st.machineId].createdAt
            && store'[st.machineId].updatedAt == now)
    ensures CanSubmitName(st) && writeFault.None? && ReadRaises(readFault) ==> st' == st
    ensures CanSubmitName(st) && writeFault.None? && !ReadRaises(readFault) ==>
      && !st'.isEditingName
      && st'.computer == (if readFault.None? && st.machineId in store' then Some(store'[st.machineId]) else None)
    ensures SameElsewhere(store, store', st.machineId)
  {
    store', st', trace := store, st, [];
    if !CanSubmitName(st) {
      return;
    }
    var name := Text.Trim(st.computerName);
    var w := UpdateComputerName(store, st.machineId, name, now, writeFault);
    ReplaySnoc(store, st.machineId, trace, WriteName(name, now, writeFault.None?));
    trace := trace + [WriteName(name, now, writeFault.None?)];
    if w.Err? {
      return;
    }
    store' := w.value;
    ReplaySnoc(store, st.machineId, trace, ReadRow);
    trace := trace + [ReadRow];
    var read := GetComputerByMachineId(store', st.machineId, readFault);
    if read.Err? {
      return;
    }
    st' := st'.(computer := read.value, isEditingName := false);
  }
}

=== FILE: platform.dfy ===
/** The Electron main-process boundary (electron/main.ts): choosing the
    power-off command, turning a failed command into `false`, and turning a
    failed identity probe into `null`. The operating-system calls themselves
    (`exec`, `machineIdSync`) are outside the model; their outcomes are
    parameters. */
module Platform {
  import opened Results

  const WindowsPlatform: string := "win32"
  const WindowsCommand: string := "shutdown /s /t 0"
  const PosixCommand: string := "sudo shutdown -h now"

  /** The command `handleShutdown` runs on the host platform. */
  function ShutdownCommand(platform: string): (cmd: string)
    ensures cmd == WindowsCommand <==> platform == WindowsPlatform
    ensures cmd == WindowsCommand || cmd == PosixCommand
  {
    if platform == WindowsPlatform then WindowsCommand else PosixCommand
  }

  /** How running a shell command ended: normally, or with an error. */
  datatype ExecResult = Completed | Failed(error: string)

  /** `handleShutdown`: runs the platform's command and re-raises its error.
      `exec` stands for the operating system running a command. */
  function HandleShutdown(platform: string, exec: string -> ExecResult): (r: Result<(), string>)
    ensures r.Ok? <==> exec(ShutdownCommand(platform)) == Completed
    ensures r.Err? ==> exec(ShutdownCommand(platform)) == Failed(r.error)
  {
    match exec(ShutdownCommand(platform))
    case Completed => Ok(())
    case Failed(e) => Err(e)
  }

  /** The `shutdown-computer` handler: `true` exactly when the command ran
      without error; a failure is reported as `false`, never raised. */
  function ShutdownComputer(platform: string, exec: string -> ExecResult): (ok: bool)
    ensures ok <==> exec(ShutdownCommand(platform)) == Completed
  {
    match HandleShutdown(platform, exec)
    case Ok(_) => true
    case Err(_) => false
  }

  /** How the platform's machine-identifier call ended. */
  datatype IdProbe = Produced(id: string) | ProbeFailed(error: string)

  /** `getMachineId`: the identifier the platform produced, or `None` when the
      call threw. */
  function GetMachineId(probe: IdProbe): (r: Option<string>)
    ensures r.None? <==> probe.ProbeFailed?
    ensures probe.Produced? ==> r == Some(probe.id)
  {
    match probe
    case Produced(id) => Some(id)
    case ProbeFailed(_) => None
  }

  /** The `get-machine-id` handler: forwards `getMachineId`'s answer unchanged,
      so it too never raises. */
  function MachineIdHandler(probe: IdProbe): (r: Option<string>)
    ensures r == GetMachineId(probe)
    ensures r.None? <==> probe.ProbeFailed?
  {
    GetMachineId(probe)
  }
}

=== FILE: registry.dfy ===
/** The shared `computers` table and the client operations on it
    (src/lib/supabase.ts). The table is a finite map from `machine_id` to the
    row for that machine: one row per machine is assumed, not enforced.
    Every call takes the store's verdict as a parameter `fault`: `None` means
    the request committed, `Some(e)` means the store rejected it with `e` and
    changed nothing. Timestamps are opaque strings supplied by the caller. */
module Registry {
  import opened Results

  /** The three values of the `status` column. */
  datatype Status = Online | ShuttingDown | Offline

  /** One row of the `computers` table. */
  datatype Computer = Computer(
    id: string,
    machineId: string,
    name: string,
    status: Status,
    createdAt: string,
    updatedAt: string)

  /** An error reported by the store. `NoRows` is the error a single-row
      select reports when no row matches (error code `PGRST116`); `Failure`
      carries the code of any other error. */
  datatype StoreError = NoRows | Failure(code: OtherCode)

  /** An error code other than the not-found code, which `NoRows` stands for. */
  type OtherCode = c: string | c != "PGRST116" witness "PGRST301"

  type Store = map<string, Computer>

  /** The store's rows are filed under their own machine id. */
  predicate WellKeyed(store: Store) {
    forall m :: m in store ==> store[m].machineId == m
  }

  /** The rows other than `m` are the same in both stores. */
  ghost predicate SameElsewhere(store: Store, store': Store, m: string) {
    forall k :: k != m ==> (k in store <==> k in store') && (k in store ==> store'[k] == store[k])
  }

  /** What the client library hands back for a single-row select: the row
      (if any) and the error (if any), as in `{ data, error }`. */
  datatype SelectReply = SelectReply(data: Option<Computer>, error: Option<StoreError>)

  /** The library's single-row select on `machine_id`: a rejected request
      yields its error, a missing row yields `NoRows`. */
  function Select(store: Store, m: string, fault: Option<StoreError>): SelectReply {
    if fault.Some? then SelectReply(None, fault)
    else if m in store then SelectReply(Some(store[m]), None)
    else SelectReply(None, Some(NoRows))
  }

  /** The store's verdict on a lookup makes `getComputerByMachineId` raise:
      an error other than not-found. */
  predicate ReadRaises(fault: Option<StoreError>) {
    fault.Some? && fault.value.Failure?
  }

  /** `getComputerByMachineId`: the row for `m`, `None` when there is none,
      and the store's error for every other failure. */
  function GetComputerByMachineId(store: Store, m: string, fault: Option<StoreError>): (r: Result<Option<Computer>, StoreError>)
    ensures fault.None? && m in store ==> r == Ok(Some(store[m]))
    ensures fault.None? && m !in store ==> r == Ok(None)
    ensures fault == Some(NoRows) ==> r == Ok(None)
    ensures fault.Some? && fault.value.Failure? ==> r == Err(fault.value)
    ensures r.Err? <==> ReadRaises(fault)
    ensures r.Err? ==> r.error != NoRows
  {
    var reply := Select(store, m, fault);
    if reply.error.Some? && reply.error.value != NoRows then Err(reply.error.value)
    else Ok(reply.data)
  }

  /** The table after an insert, and the row the insert returned. */
  datatype Inserted = Inserted(store: Store, row: Computer)

  /** `addComputer`: inserts a row for `m` named `name`, status online, created
      and updated at `now`; `newId` is the identifier the store assigns. */
  function AddComputer(store: Store, m: string, name: string, now: string, newId: string, fault: Option<StoreError>): (r: Result<Inserted, StoreError>)
    ensures fault.Some? ==> r == Err(fault.value)
    ensures fault.None? ==> r.Ok?
    ensures r.Ok? ==> var row := r.value.row;
      && row.id == newId && row.machineId == m && row.name == name
      && row.status == Online && row.createdAt == now && row.updatedAt == row.createdAt
    ensures r.Ok? ==> m in r.value.store && r.value.store[m] == r.value.row
    ensures r.Ok? ==> SameElsewhere(store, r.value.store, m)
  {
    if fault.Some? then Err(fault.value)
    else
      var row := Computer(newId, m, name, Online, now, now);
      Ok(Inserted(store[m := row], row))
  }

  /** `removeComputer`: deletes the row for `m`, if any. */
  function RemoveComputer(store: Store, m: string, fault: Option<StoreError>): (r: Result<Store, StoreError>)
    ensures fault.Some? ==> r == Err(fault.value)
    ensures fault.None? ==> r.Ok?
    ensures r.Ok? ==> m !in r.value && r.value.Keys == store.Keys - {m}
    ensures r.Ok? ==> SameElsewhere(store, r.value, m)
  {
    if fault.Some? then Err(fault.value) else Ok(store - {m})
  }

  /** `updateComputerStatus`: sets the status of the row for `m` (if any) and
      refreshes its update time; every other column and row is kept. */
  function UpdateComputerStatus(store: Store, m: string, s: Status, now: string, fault: Option<StoreError>): (r: Result<Store, StoreError>)
    ensures fault.Some? ==> r == Err(fault.value)
    ensures fault.None? ==> r.Ok?
    ensures r.Ok? ==> r.value.Keys == store.Keys
    ensures r.Ok? && m in store ==> var row, row' := store[m], r.value[m];
      && row'.status == s && row'.updatedAt == now
      && row'.id == row.id && row'.machineId == row.machineId
      && row'.name == row.name && row'.createdAt == row.createdAt
    ensures r.Ok? ==> SameElsewhere(store, r.value, m)
  {
    if fault.Some? then Err(fault.value)
    else if m in store then Ok(store[m := store[m].(status := s, updatedAt := now)])
    else Ok(store)
  }

  /** `updateComputerName`: renames the row for `m` (if any) and refreshes its
      update time; every other column and row is kept. */
  function UpdateComputerName(store: Store, m: string, name: string, now: string, fault: Option<StoreError>): (r: Result<Store, StoreError>)
    ensures fault.Some? ==> r == Err(fault.value)
    ensures fault.None? ==> r.Ok?
    ensures r.Ok? ==> r.value.Keys == store.Keys
    ensures r.Ok? && m in store ==> var row, row' := store[m], r.value[m];
      && row'.name == name && row'.updatedAt == now
      && row'.id == row.id && row'.machineId == row.machineId
      && row'.status == row.status && row'.createdAt == row.createdAt
    ensures r.Ok? ==> SameElsewhere(store, r.value, m)
  {
    if fault.Some? then Err(fault.value)
    else if m in store then Ok(store[m := store[m].(name := name, updatedAt := now)])
    else Ok(store)
  }

  /** The kinds of change the store's feed can report for a row. */
  datatype ChangeKind = InsertChange | UpdateChange | DeleteChange

  /** One change-feed payload: its kind and the row before and after. */
  datatype Change = Change(kind: ChangeKind, before: Computer, after: Computer)

  /** The handler installed by `subscribeToComputerStatus(m, ...)`: the new
      status to pass on, or `None` when the callback is not invoked. */
  function StatusNotification(subscribed: string, change: Change): (r: Option<Status>)
    ensures r.Some? <==>
      && change.kind == UpdateChange
      && change.after.machineId == subscribed
      && change.after.status != change.before.status
    ensures r.Some? ==> r.value == change.after.status
  {
    if change.kind != UpdateChange || change.after.machineId != subscribed then None
    else if change.after.status != change.before.status then Some(change.after.status)
    else None
  }

  /** The update payload a committed write to row `m` emits, if the row exists. */
  function UpdateOf(before: Store, after: Store, m: string): Option<Change> {
    if m in before && m in after then Some(Change(UpdateChange, before[m], after[m])) else None
  }

  /** A status write to row `m` notifies the subscriber of `k` exactly when
      `k` is `m` and the status really changed, and passes the new status. */
  lemma StatusWriteNotifies(store: Store, m: string, s: Status, now: string, k: string)
    requires WellKeyed(store) && m in store
    ensures var after := UpdateComputerStatus(store, m, s, now, None).value;
      var change := UpdateOf(store, after, m);
      && change.Some?
      && StatusNotification(k, change.value) == (if k == m && store[m].status != s then Some(s) else None)
  {
  }

  /** A rename never reaches a status subscriber. */
  lemma RenameIsSilent(store: Store, m: string, name: string, now: string, k: string)
    requires m in store
    ensures var after := UpdateComputerName(store, m, name, now, None).value;
      StatusNotification(k, UpdateOf(store, after, m).value) == None
  {
  }

  /** Every committed operation keeps rows filed under their own machine id. */
  lemma OperationsKeepWellKeyed(store: Store, m: string, name: string, s: Status, now: string, newId: string)
    requires WellKeyed(store)
    ensures WellKeyed(AddComputer(store, m, name, now, newId, None).value.store)
    ensures WellKeyed(RemoveComputer(store, m, None).value)
    ensures WellKeyed(UpdateComputerStatus(store, m, s, now, None).value)
    ensures WellKeyed(UpdateComputerName(store, m, name, now, None).value)
  {
  }

  /** After a committed removal, looking `m` up finds nothing. */
  lemma LookupAfterRemove(store: Store, m: string)
    ensures GetComputerByMachineId(RemoveComputer(store, m, None).value, m, None) == Ok(None)
  {
  }

  /** After a committed insertion, looking `m` up finds the inserted online row. */
  lemma LookupAfterAdd(store: Store, m: string, name: string, now: string, newId: string)
    ensures var ins := AddComputer(store, m, name, now, newId, None).value;
      GetComputerByMachineId(ins.store, m, None) == Ok(Some(ins.row)) && ins.row.status == Online
  {
  }
}

=== FILE: results.dfy ===
/** Optional values and fallible results shared by every module of the model.
    `Option` stands for the source's `T | null`; `Result` for a call that either
    resolves with a value or rejects (throws) with an error. */
module Results {

  datatype Option<+T> = None | Some(value: T)

  datatype Result<+T, +E> = Ok(value: T) | Err(error: E) {

    /** The value on success, or `default` when the call rejected. */
    function GetOr(default: T): T {
      match this
      case Ok(v) => v
      case Err(_) => default
    }
  }
}

=== FILE: scenarios.dfy ===
/** End-to-end runs that chain the agent's handlers, the store and the
    platform boundary: the operator's writes, the feed delivering them to the
    agent, and the agent's reaction. */
module Scenarios {
  import opened Results
  import opened Registry
  import Text
  import Platform
  import opened Agent

  /** A machine with no row starts up, finds nothing, and the operator adds it:
      the row then exists, is online and carries the trimmed name. */
  method RegisterFreshMachine(store: Store, m: string, typed: string, t0: string, t1: string, newId: string)
    returns (store': Store, st': AgentState)
    requires m != "" && m !in store && !Text.IsBlank(typed)
    ensures st'.computer.Some? && st'.computer.value.status == Online
    ensures GetComputerByMachineId(store', m, None) == Ok(st'.computer)
    ensures st'.computer.value.name == Text.Trim(typed)
  {
    var st, s0, tr;
    s0, st, tr := Initialize(store, Initial, Platform.Produced(m), None, None, t0);
    assert st.computer == None;
    st := st.(computerName := typed);
    store', st', tr := HandleAddComputer(s0, st, t1, newId, None);
  }

  /** The operator asks an online machine to shut down; the feed delivers the
      change to the machine's agent, which calls the platform's executor. The
      row ends offline exactly when the power-off command completed, and back
      online otherwise. */
  method RemoteShutdown(store: Store, m: string, platform: string, exec: string -> Platform.ExecResult, t0: string, t1: string)
    returns (store': Store, trace: seq<Event>)
    requires WellKeyed(store) && m in store && store[m].status == Online
    ensures m in store'
    ensures store'[m].status == Offline <==> exec(Platform.ShutdownCommand(platform)) == Platform.Completed
    ensures store'[m].status == Online <==> exec(Platform.ShutdownCommand(platform)) != Platform.Completed
    ensures ExecutesAfterOffline(trace) && Execute in trace
  {
    var requested := UpdateComputerStatus(store, m, ShuttingDown, t0, None).value;
    StatusWriteNotifies(store, m, ShuttingDown, t0, m);
    var change := UpdateOf(store, requested, m).value;
    var reply := Replied(Platform.ShutdownComputer(platform, exec));
    store', trace := OnFeedChange(requested, m, change, reply, None, None, None, t1);
  }

  /** Even when the shutdown fails and every rollback write is lost, leaving
      the row offline while the machine runs, the next start-up marks it
      online again. */
  method RestartHealsLostRollback(store: Store, m: string, t0: string, t1: string, e1: StoreError, e2: StoreError)
    returns (afterFailure: Store, store': Store)
    requires WellKeyed(store) && m != "" && m in store
    ensures m in afterFailure && afterFailure[m].status == Offline
    ensures m in store' && store'[m].status == Online
    ensures WellKeyed(afterFailure) && WellKeyed(store')
  {
    var tr;
    afterFailure, tr := OnStatusChange(store, m, ShuttingDown, Replied(false), None, Some(e1), Some(e2), t0);
    ReplayKeepsWellKeyed(store, m, tr);
    var st;
    store', st, tr := Initialize(afterFailure, Initial, Platform.Produced(m), None, None, t1);
    ReplayKeepsWellKeyed(afterFailure, st.machineId, tr);
  }

  /** Removing the machine's row through the window empties every later lookup. */
  method RemoveThenLookup(store: Store, st: AgentState)
    returns (found: Result<Option<Computer>, StoreError>)
    requires st.machineId != ""
    ensures found == Ok(None)
  {
    var store', st', tr := HandleRemoveComputer(store, st, None);
    found := GetComputerByMachineId(store', st.machineId, None);
  }

  /** Renaming keeps the status and creation time and refreshes the update time
      and the local view. */
  method RenameRegistered(store: Store, st: AgentState, now: string)
    returns (store': Store, st': AgentState)
    requires CanSubmitName(st) && st.machineId in store
    ensures st'.computer.Some? && !st'.isEditingName
    ensures var row := st'.computer.value;
      && row.name == Text.Trim(st.computerName)
      && row.status == store[st.machineId].status
      && row.createdAt == store[st.machineId].createdAt
      && row.updatedAt == now
  {
    var tr;
    store', st', tr := HandleUpdateName(store, st, now, None, None);
  }
}

=== FILE: text.dfy ===
/** String trimming as performed by ECMAScript's `String.prototype.trim`:
    leading and trailing white space and line terminators are removed. */
module Text {

  /** The code points ECMAScript treats as WhiteSpace or LineTerminator:
      TAB, LF, VT, FF, CR, SPACE, NBSP, the Zs separators, LS, PS and the BOM. */
  predicate IsWhitespace(c: char) {
    || c == '\t' || c == '\n' || c == '\U{B}' || c == '\U{C}' || c == '\r'
    || c == ' ' || c == '\U{A0}' || c == '\U{1680}'
    || ('\U{2000}' <= c <= '\U{200A}')
    || c == '\U{2028}' || c == '\U{2029}' || c == '\U{202F}' || c == '\U{205F}'
    || c == '\U{3000}' || c == '\U{FEFF}'
  }

  /** A string is blank when every character is white space (the empty string included). */
  predicate IsBlank(s: string) {
    forall k :: 0 <= k < |s| ==> IsWhitespace(s[k])
  }

  /** Length of the longest white-space prefix of `s`. */
  function LeadingSpace(s: string): (n: nat)
    ensures n <= |s|
    ensures forall k :: 0 <= k < n ==> IsWhitespace(s[k])
    ensures n < |s| ==> !IsWhitespace(s[n])
  {
    if |s| == 0 || !IsWhitespace(s[0]) then 0 else 1 + LeadingSpace(s[1..])
  }

  /** Length of the longest white-space suffix of `s`. */
  function TrailingSpace(s: string): (n: nat)
    ensures n <= |s|
    ensures forall k :: |s| - n <= k < |s| ==> IsWhitespace(s[k])
    ensures n < |s| ==> !IsWhitespace(s[|s| - 1 - n])
  {
    if |s| == 0 || !IsWhitespace(s[|s| - 1]) then 0 else 1 + TrailingSpace(s[..|s| - 1])
  }

  /** `s` with its leading and trailing white space removed. */
  function Trim(s: string): (r: string)
    ensures |r| <= |s|
    ensures r == [] <==> IsBlank(s)
    ensures r != [] ==> !IsWhitespace(r[0]) && !IsWhitespace(r[|r| - 1])
  {
    var i := LeadingSpace(s);
    var t := s[i..];
    var j := |t| - TrailingSpace(t);
    assert j == 0 ==> i == |s|;
    t[..j]
  }

  /** Trimming keeps a contiguous part of the input and cuts only white space. */
  lemma TrimCutsOnlyWhitespace(s: string)
    ensures exists i ::
      && 0 <= i <= |s| - |Trim(s)|
      && Trim(s) == s[i..i + |Trim(s)|]
      && IsBlank(s[..i])
      && IsBlank(s[i + |Trim(s)|..])
  {
    var i := LeadingSpace(s);
    var t := s[i..];
    var j := |t| - TrailingSpace(t);
    assert Trim(s) == t[..j] == s[i..i + j];
    assert IsBlank(s[..i]);
    assert s[i + j..] == t[j..];
  }

  /** Trimming a trimmed string changes nothing. */
  lemma TrimIdempotent(s: string)
    ensures Trim(Trim(s)) == Trim(s)
  {
  }
}
